=== FILE: README.md ===
# mygit core: index encoder, staging and object hashing

This project models the byte-level core of `corsair/mygit.py`, a minimal
re-implementation of git's storage layer, and proves properties of it:

- **Index encoding** (`writeIndex`): each staged file becomes a 62-byte head
  (ten big-endian 32-bit words, the 20-byte raw SHA-1, the 16-bit flags), then
  the UTF-8 path, then 1 to 8 NUL bytes up to the next multiple of 8. The file
  is the 12-byte header `DIRC`, version 2, entry count, then the entries in the
  order given, then the SHA-1 of everything before it.
- **Staging** (`add`): one entry per path, built from the blob id and the
  `os.stat` fields, with the UTF-8 path length as the flags, and the index
  rewritten after every path.
- **Object hashing** (`hashObject`): the envelope `"<type> <length>" NUL data`,
  its lower-case hexadecimal SHA-1 as the object id, and the storage path
  `.git/objects/<id[:2]>/<id[2:]>`.

SHA-1 itself is a parameter (`Bytes.Hasher`, any function from bytes to 20
bytes); properties that need collision freedom take it as an explicit
hypothesis about the two inputs concerned. The file system is a map from path
to content and stat fields (`WorkTree.Snapshot`); writing a file is modelled
by returning the bytes that would be written.

The source has no index reader and no envelope reader. The decoders
`Index.ParseIndex`, `Objects.ParseEnvelope`, `Objects.IdOfObjectPath` and
`Utf8.Decode` are this model's own readings of the layouts; they exist to be
the partners of the encoders in round-trip lemmas. `Hex.FromHex` is different:
it models `bytes.fromhex`, which `add` calls at line 93 to turn the hexadecimal
id into the 20 raw bytes stored in the entry.

Modules: `Outcomes` (Option/Result), `Bytes` (octets, big-endian words),
`Utf8`, `Hex`, `Decimal`, `Sequences` (separator search, joining), `WorkTree`,
`Objects`, `Index`, `Stage`.

Where the code differs from what git itself does, the model follows the code:

- `add` starts from an empty entry list on every call; it does not read the
  index already on disk, so a second `add` replaces what the first staged.
- `add` calls `hashObject(path, 'blob')` with `write` left at `False`, so
  staging stores no blob object.
- The index is written after each path, so a failure part-way leaves the
  index of the paths staged before it, and the error is the one the next
  path raises (`Stage.Add`).
- Entries are kept in the order the paths were given, duplicates included;
  nothing is sorted.

## Model

| member | source | states |
|---|---|---|
| `Bytes.BigEndian` | corsair/mygit.py:37-40 | a `!L` or `!H` field of a number that fits is exactly 4 or 2 bytes (`ReadBigEndianOfBigEndian` reads it back as the number) |
| `Bytes.ReadBigEndianOfBigEndian` | corsair/mygit.py:37-40 | a `!L`/`!H` field read back big-endian gives the packed number |
| `Bytes.BigEndianOfReadBigEndian` | corsair/mygit.py:37-40 | every `width`-byte field is the big-endian encoding of the number it reads as |
| `Index.PackWords` | corsair/mygit.py:37-39 | ten `L` fields pack to 4 bytes each, and each 4-byte group reads back as its field |
| `Index.FixedBytes` | corsair/mygit.py:40 | the `20s` field keeps the first 20 bytes of the digest and NUL-pads a shorter one |
| `Index.PackHead` | corsair/mygit.py:37-40 | the head is 62 bytes: words at offsets 0..40 read back as the ten fields, digest at 40..60, flags at 60..62 |
| `Index.EntryLength` | corsair/mygit.py:42 | the entry length is a multiple of 8, strictly above 62 + path length and at most 8 above it (1 to 8 NULs) |
| `Index.PackEntry` | corsair/mygit.py:37-43 | packing succeeds exactly when every field fits; then head, UTF-8 path, NUL padding, of length `EntryLength` |
| `Index.PackEntries` | corsair/mygit.py:36-44 | packing all entries succeeds exactly when each packs; the length is the sum of entry lengths |
| `Index.TotalLengthAligned` | corsair/mygit.py:42-46 | the packed entries together fill a multiple of 8 bytes |
| `Index.PackEntriesJoin` | corsair/mygit.py:36-46 | packing the entries is `b''.join` of each entry packed on its own, in the order given |
| `Index.PackEntriesAt` | corsair/mygit.py:36-46 | entry `i` is packed whole, exactly as `PackEntry` packs it, at the sum of the earlier entries' lengths, which is a multiple of 8 |
| `Index.IndexHeader` | corsair/mygit.py:45 | the header is 12 bytes: `DIRC`, version 2, the entry count |
| `Index.WriteIndex` | corsair/mygit.py:35-48 | the file is header, entries in order, and the SHA-1 of both; it fails exactly when a field or the count does not fit |
| `Index.ParseEntry` | corsair/mygit.py:41-43 | a decoded entry's length is the encoder's formula of its path length, and the flags' low 12 bits are that path length |
| `Index.ParseEntries` | corsair/mygit.py:46 | a successful read yields exactly the declared number of entries |
| `Index.ParseIndex` | corsair/mygit.py:45-47 | a file is accepted only if its trailer is the SHA-1 of the rest, the header is `DIRC` version 2, and the count matches |
| `Index.HeadFields` | corsair/mygit.py:37-39 | the ten integer fields of a packed head read back at their offsets |
| `Index.HeadWord` | corsair/mygit.py:37-39 | the `i`-th 4-byte group of a packed head reads back as the `i`-th integer field |
| `Index.HeadDigestAndFlags` | corsair/mygit.py:40 | a 20-byte digest and the flags read back from offsets 40 and 60 of a packed head |
| `Index.ParseEntryOfPackEntry` | corsair/mygit.py:37-43 | a well-formed packed entry is read back unchanged, whatever follows it |
| `Index.ParseEntriesOfPackEntries` | corsair/mygit.py:36-46 | the concatenated entries are read back as the same sequence, in order |
| `Index.ParseIndexOfParts` | corsair/mygit.py:45-47 | with a valid header and trailer, reading the file reads its body |
| `Index.ParseIndexOfWriteIndex` | corsair/mygit.py:35-48 | reading the written index gives back the entries, in the order written |
| `Index.AlteredBodyIsRejected` | corsair/mygit.py:45-47 | a file whose header or entries changed under the old trailer is rejected as corrupt, when the hash does not collide on the old and new bytes |
| `Index.AlteredTrailerIsRejected` | corsair/mygit.py:47 | a file whose trailer changed while the rest was kept is rejected as corrupt, whatever the hash |
| `Utf8.Encode` | corsair/mygit.py:41 | `str.encode()` of `n` characters is between `n` and `4n` bytes long (`Utf8.DecodeEncode` inverts it) |
| `Utf8.EncodeChar` | corsair/mygit.py:41 | a character encodes to 1 to 4 bytes; one byte exactly for ASCII, and no byte below 0x80 otherwise |
| `Utf8.DecodeFirst` | corsair/mygit.py:41 | one decoding step consumes 1 to 4 bytes |
| `Utf8.DecodeEncode` | corsair/mygit.py:41 | decoding the UTF-8 encoding of a path gives the path |
| `Utf8.EncodeDecode` | corsair/mygit.py:41 | every byte string the decoder accepts is the encoding of what it decodes to |
| `Utf8.DecodeStep` | corsair/mygit.py:41 | an accepted byte string starts with the encoding of its first decoded character |
| `Utf8.EncodeCons` | corsair/mygit.py:41 | encoding a string is the first character's bytes then the rest's |
| `Utf8.EncodeHasNul` | corsair/mygit.py:119-120 | an encoding holds a NUL byte exactly when the string holds a NUL character |
| `Utf8.EncodeAscii` | corsair/mygit.py:88 | an ASCII path's UTF-8 length is its character count, byte for byte |
| `Utf8.DecodeFirstOfEncodeChar` | corsair/mygit.py:41 | the decoder's first step reads back the character the encoder wrote |
| `Utf8.EncodeCharOfDecodeFirst` | corsair/mygit.py:41 | the bytes one decoding step consumes are the encoding of the character it returns |
| `Hex.ToHex` | corsair/mygit.py:122 | `hexdigest()` writes two lower-case digits per byte |
| `Hex.FromHex` | corsair/mygit.py:93 | `bytes.fromhex` yields at most one byte per two characters |
| `Hex.DigitValueOfDigit` | corsair/mygit.py:93 | each rendered digit reads back as its nibble and is not white space |
| `Hex.FromHexToHex` | corsair/mygit.py:93 | `bytes.fromhex(hexdigest)` gives back the raw digest |
| `Hex.ToHexInjective` | corsair/mygit.py:122 | distinct digests have distinct hexadecimal ids |
| `Decimal.Render` | corsair/mygit.py:119 | the length is written in decimal digits without leading zeros |
| `Decimal.ParseRender` | corsair/mygit.py:119 | the decimal length in the header reads back as the length |
| `Sequences.FirstIndexOfSeparator` | corsair/mygit.py:120 | the first NUL of header + NUL + data is the separator when the header has none |
| `Sequences.LastIndexOfSeparator` | corsair/mygit.py:119 | the last space of `type + " " + digits` is the separator |
| `Sequences.JoinAt` | corsair/mygit.py:46 | each part of a `b''.join` sits whole right after the parts before it |
| `Objects.Envelope` | corsair/mygit.py:119-120 | the envelope is the UTF-8 header, one NUL, then the content |
| `Objects.ParseEnvelope` | corsair/mygit.py:119-120 | whatever the envelope reader accepts is the envelope of the type and content it returns |
| `Objects.EnvelopeOfParts` | corsair/mygit.py:119-120 | the parts the reader splits out reassemble to the envelope |
| `Objects.Header` | corsair/mygit.py:119 | the header bytes decode as UTF-8 to the type, one space and the length in decimal |
| `Objects.HeaderHasNoNul` | corsair/mygit.py:119 | a header of a NUL-free type holds no NUL byte |
| `Objects.ParseEnvelopeOfEnvelope` | corsair/mygit.py:119-120 | every envelope reads back as its type and content |
| `Objects.EnvelopeInjective` | corsair/mygit.py:119-120 | two envelopes are equal exactly when their types and contents are |
| `Objects.ObjectId` | corsair/mygit.py:119-122 | the id is 40 lower-case hex digits that parse to the SHA-1 of the envelope |
| `Objects.ObjectIdIdentifiesContent` | corsair/mygit.py:119-122 | under a hash separating the two envelopes, ids are equal exactly when contents are |
| `Objects.ObjectLocation` | corsair/mygit.py:126 | an id splits into a 2-character directory and a 38-character file name that rejoin to the id |
| `Objects.ObjectPath` | corsair/mygit.py:126 | an object path is `.git/objects/` followed by 41 characters |
| `Objects.IdOfObjectPath` | corsair/mygit.py:126 | a path the reader accepts is the object path of the id it returns |
| `Objects.IdOfObjectPathOfObjectPath` | corsair/mygit.py:126 | the object path determines the id it was built from |
| `Objects.HashObject` | corsair/mygit.py:110-134 | fails exactly on a missing file, with `NotFound` of that file; the id is 40 lower-case hex digits that parse to the envelope's SHA-1; something is stored exactly when `write` is set: the envelope itself, at a path that reads back as the id |
| `Objects.HashObjectDeduplicates` | corsair/mygit.py:115-122 | two files with identical content get the same id and, when `write` is set, the same stored object at the same path |
| `Stage.MakeEntry` | corsair/mygit.py:79-94 | fails exactly on a missing path, with `Missing(path)` (the `open` at line 115 runs first), or on a UTF-8 path length of 4096 or more, with `NameTooLong(path)`; otherwise flags are the UTF-8 length below 4096, sha1 the raw blob digest, nanoseconds 0, stat fields copied |
| `Stage.BuildEntries` | corsair/mygit.py:77-95 | entries succeed exactly when every path's entry does; one entry per path, in order |
| `Stage.StagedIndex` | corsair/mygit.py:77-96 | no index is written exactly when no path is given |
| `Stage.AsciiPathFlags` | corsair/mygit.py:86-88 | for an ASCII path the flags are its character count |
| `Stage.StagedIndexEntryFails` | corsair/mygit.py:80-90 | when the next path's entry cannot be built, staging one more path fails with that entry's error |
| `Stage.StagedIndexStep` | corsair/mygit.py:91-96 | when the next path's entry is built, the longer batch has one more entry, and writes the new index or fails with its packing error |
| `Stage.StagePath` | corsair/mygit.py:80-96 | one turn of the loop: the error staging one more path raises, or the longer batch's entries and the file it writes |
| `Stage.StagedIndexFailurePersists` | corsair/mygit.py:79-96 | once staging a prefix of the paths fails, staging them all fails |
| `Stage.BuildFailurePersists` | corsair/mygit.py:79-94 | a path of the prefix whose entry cannot be built stops the whole batch from building |
| `Stage.PackFailurePersists` | corsair/mygit.py:91-96 | when the prefix's entries cannot be written, neither can the whole batch's |
| `Stage.EntriesAgree` | corsair/mygit.py:77-95 | the entries built for a prefix of the paths are the first entries built for the whole batch |
| `Stage.Add` | corsair/mygit.py:77-96 | the index this call last wrote, if any, is the encoding of the paths staged so far (none written when no path was staged); on failure the next path's staging raises the returned error; `add` succeeds exactly when the whole batch does, and then leaves its encoding |
| `Stage.AddOutcome` | corsair/mygit.py:77-96 | where the loop stops decides the result: no error exactly when the whole batch stages, and then the index left is the batch's |
| `Stage.StagedIndexReadsBack` | corsair/mygit.py:77-96 | reading the staged index gives one entry per path, in the given order, carrying its path and its blob digest |

## Left out

- File I/O: `open`, `os.stat`, `os.makedirs`, `os.path.exists` and `writeFile` are replaced by the `WorkTree.Snapshot` map and by returned byte strings.
- zlib compression of stored objects (line 131) is not modelled; `Objects.HashObject` returns the uncompressed envelope it would compress.
- SHA-1 internals: the hash is the `Bytes.Hasher` parameter; collision freedom appears only as an explicit hypothesis.
- `hashObject` skipping `makedirs` when the object already exists (line 128) changes only directories, so it is not modelled.
- `init`, `usage`, the command-line dispatch and the `print(entries)` at line 97 are outside the core.
- The unfinished first draft of `writeIndex` (lines 11-32) builds values it never uses and is not modelled.
- `writeIndex` calls an undefined `write_file` at line 48, which would raise `NameError`; the model returns the bytes that call was meant to write.
- The source writes under `.git` although `baseName` is `.mygit`; the model keeps `.git` as the code does.
- `int(st.st_ctime)` and `int(st.st_mtime)` truncate floating-point seconds; `WorkTree.Stat` holds the truncated whole seconds.
- Python paths holding lone surrogates (from `surrogateescape`) cannot be encoded strictly; Dafny strings hold only Unicode scalar values, so this error path is not modelled.
- The source's `assert flags < (1 << 12)` is modelled as the `NameTooLong` error, as if assertions are enabled; under `python -O` it would instead fall through to `struct.pack`.
- `Index.ParseEntry`: the decoder does not check that padding bytes are NUL or that the flags' top 4 bits are zero; it is a partner for the round trip, not a validator.
- Status reconciliation and reading an index back from disk are not part of this source file's code, so they are not modelled beyond the model-side decoder.

=== FILE: bytes.dfy ===
/** Octets, fixed-width big-endian integers and the 20-byte digest type. */
module Bytes {

  /** One octet of a Python `bytes` object. */
  type byte = x: int | 0 <= x < 0x100

  /** Size in bytes of a SHA-1 digest. */
  const DigestSize: nat := 20

  /** A raw SHA-1 digest. */
  type Digest = s: seq<byte> | |s| == DigestSize witness seq(20, _ => 0)

  /** The hash function, taken as a parameter: any total function that maps
      a byte string to 20 bytes. Its internals are not part of this model. */
  type Hasher = seq<byte> -> Digest

  /** The hash function separates these two byte strings: it does not
      collide on them. */
  predicate Separates(sha1: Hasher, a: seq<byte>, b: seq<byte>) {
    a != b ==> sha1(a) != sha1(b)
  }

  /** 256 to the power `width`: the number of values `width` octets hold. */
  function Pow256(width: nat): (r: nat)
    ensures r >= 1
  {
    if width == 0 then 1 else 0x100 * Pow256(width - 1)
  }

  /** `width` NUL bytes. */
  function Zeros(width: nat): (r: seq<byte>)
    ensures |r| == width
    ensures forall i :: 0 <= i < width ==> r[i] == 0
  {
    seq(width, _ => 0)
  }

  /** Big-endian unsigned encoding of `n` in exactly `width` octets, as
      `struct.pack` writes a `L` (width 4) or `H` (width 2) field in
      network byte order. */
  function BigEndian(n: nat, width: nat): (r: seq<byte>)
    requires n < Pow256(width)
    ensures |r| == width
    decreases width
  {
    if width == 0 then []
    else BigEndian(n / 0x100, width - 1) + [n % 0x100]
  }

  /** The unsigned integer whose big-endian octets are `s`. */
  function ReadBigEndian(s: seq<byte>): (r: nat)
    ensures r < Pow256(|s|)
  {
    if |s| == 0 then 0
    else ReadBigEndian(s[..|s| - 1]) * 0x100 + s[|s| - 1]
  }

  /** Reading back a big-endian encoding yields the encoded number. */
  lemma {:induction false} ReadBigEndianOfBigEndian(n: nat, width: nat)
    requires n < Pow256(width)
    ensures ReadBigEndian(BigEndian(n, width)) == n
    decreases width
  {
    if width > 0 {
      var s := BigEndian(n, width);
      assert s[..|s| - 1] == BigEndian(n / 0x100, width - 1);
      ReadBigEndianOfBigEndian(n / 0x100, width - 1);
    }
  }

  /** Encoding a number read from octets gives back those octets. */
  lemma {:induction false} BigEndianOfReadBigEndian(s: seq<byte>)
    ensures BigEndian(ReadBigEndian(s), |s|) == s
  {
    if |s| > 0 {
      var init := s[..|s| - 1];
      BigEndianOfReadBigEndian(init);
      var n := ReadBigEndian(s);
      assert n / 0x100 == ReadBigEndian(init);
      assert n % 0x100 == s[|s| - 1];
      assert s == init + [s[|s| - 1]];
    }
  }
}

=== FILE: decimal.dfy ===
/** Decimal text of natural numbers, as Python's `"{}".format(n)` writes them. */
module Decimal {

  predicate IsDigit(c: char) {
    '0' <= c <= '9'
  }

  /** The digits of `n`, most significant first, without leading zeros. */
  function Render(n: nat): (r: string)
    ensures |r| >= 1
    ensures forall i :: 0 <= i < |r| ==> IsDigit(r[i])
    ensures |r| > 1 ==> r[0] != '0'
  {
    if n < 10 then [('0' as int + n) as char]
    else Render(n / 10) + [('0' as int + n % 10) as char]
  }

  /** The number a string of decimal digits denotes. */
  function Parse(s: string): (n: nat)
    requires forall i :: 0 <= i < |s| ==> IsDigit(s[i])
  {
    if |s| == 0 then 0
    else
      assert IsDigit(s[|s| - 1]);
      Parse(s[..|s| - 1]) * 10 + (s[|s| - 1] as int - '0' as int)
  }

  /** Parsing the rendering of `n` yields `n`. */
  lemma {:induction false} ParseRender(n: nat)
    ensures Parse(Render(n)) == n
  {
    if n >= 10 {
      var r := Render(n);
      assert r[..|r| - 1] == Render(n / 10);
      ParseRender(n / 10);
    }
  }
}

=== FILE: hex.dfy ===
/** Hexadecimal text: `hashlib`'s `hexdigest()` rendering and `bytes.fromhex` parsing. */
module Hex {
  import opened Outcomes
  import opened Bytes

  /** The lower-case digit for a nibble `v`. */
  function Digit(v: nat): (c: char)
    requires v < 16
  {
    if v < 10 then ('0' as int + v) as char else ('a' as int + v - 10) as char
  }

  /** A lower-case hexadecimal digit, the alphabet `hexdigest()` writes. */
  predicate IsLowerHexDigit(c: char) {
    ('0' <= c <= '9') || ('a' <= c <= 'f')
  }

  /** A hexadecimal digit of either case, the alphabet `fromhex` reads. */
  predicate IsHexDigit(c: char) {
    IsLowerHexDigit(c) || ('A' <= c <= 'F')
  }

  /** The ASCII white space that `fromhex` skips between byte pairs:
      space, tab, line feed, vertical tab, form feed, carriage return. */
  predicate IsAsciiSpace(c: char) {
    c == ' ' || (9 <= c as int <= 13)
  }

  /** The value of the hexadecimal digit `c`. */
  function DigitValue(c: char): (v: nat)
    requires IsHexDigit(c)
    ensures v < 16
  {
    if '0' <= c <= '9' then c as int - '0' as int
    else if 'a' <= c <= 'f' then c as int - 'a' as int + 10
    else c as int - 'A' as int + 10
  }

  /** Lower-case hexadecimal rendering, two digits per byte, most significant nibble first. */
  function ToHex(d: seq<byte>): (r: string)
    ensures |r| == 2 * |d|
    ensures forall i :: 0 <= i < |r| ==> IsLowerHexDigit(r[i])
  {
    if |d| == 0 then [] else [Digit(d[0] / 16), Digit(d[0] % 16)] + ToHex(d[1..])
  }

  /** `bytes.fromhex(s)`: pairs of hexadecimal digits of either case, with ASCII
      white space allowed between pairs; `None` where Python raises `ValueError`
      (a non-hexadecimal character, or a pair cut short). */
  function FromHex(s: string): (r: Option<seq<byte>>)
    ensures r.Some? ==> 2 * |r.value| <= |s|
  {
    if |s| == 0 then Some([])
    else if IsAsciiSpace(s[0]) then FromHex(s[1..])
    else if |s| < 2 || !IsHexDigit(s[0]) || !IsHexDigit(s[1]) then None
    else
      match FromHex(s[2..])
      case None => None
      case Some(rest) => Some([DigitValue(s[0]) * 16 + DigitValue(s[1])] + rest)
  }

  /** A digit reads back as the nibble it renders. */
  lemma DigitValueOfDigit(v: nat)
    requires v < 16
    ensures IsLowerHexDigit(Digit(v)) && !IsAsciiSpace(Digit(v))
    ensures DigitValue(Digit(v)) == v
  {
  }

  /** `fromhex` inverts `hexdigest`: the 40-character id of a digest parses back
      to the 20 raw bytes it was rendered from. */
  lemma {:induction false} FromHexToHex(d: seq<byte>)
    ensures FromHex(ToHex(d)) == Some(d)
  {
    if |d| > 0 {
      var s := ToHex(d);
      var hi, lo := d[0] / 16, d[0] % 16;
      DigitValueOfDigit(hi);
      DigitValueOfDigit(lo);
      assert s[0] == Digit(hi) && s[1] == Digit(lo);
      assert DigitValue(s[0]) * 16 + DigitValue(s[1]) == d[0];
      assert s[2..] == ToHex(d[1..]);
      FromHexToHex(d[1..]);
      assert [d[0]] + d[1..] == d;
    }
  }

  /** Rendering is injective: distinct digests have distinct hexadecimal ids. */
  lemma ToHexInjective(a: seq<byte>, b: seq<byte>)
    requires ToHex(a) == ToHex(b)
    ensures a == b
  {
    FromHexToHex(a);
    FromHexToHex(b);
  }
}

=== FILE: index.dfy ===
/** The staging-area file (corsair/mygit.py, `writeIndex`): fixed 62-byte entry
    heads, NUL-padded UTF-8 paths, the `DIRC` header and the SHA-1 trailer.
    The decoder is this model's own reading of the documented layout; it is
    the partner against which the encoder's byte layout is proved. */
module Index {
  import opened Outcomes
  import opened Bytes
  import Utf8
  import opened Sequences

  /** One staged file, field for field as the source's `IndexEntry` tuple. */
  datatype IndexEntry = IndexEntry(
    ctimeS: int, ctimeN: int, mtimeS: int, mtimeN: int,
    dev: int, ino: int, mode: int, uid: int, gid: int, size: int,
    sha1: seq<byte>, flags: int, path: string)

  /** `struct.error`: an integer that does not fit its field. */
  datatype PackError = StructError

  /** The four signature bytes `DIRC`. */
  const Signature: seq<byte> := [0x44, 0x49, 0x52, 0x43]

  /** The only index version written. */
  const Version: nat := 2

  /** Signature, version and entry count. */
  const HeaderSize: nat := 12

  /** Ten 32-bit words, the 20-byte digest and the 16-bit flags. */
  const HeadSize: nat := 62

  /** The flags word keeps the path length in its low 12 bits. */
  const NameLimit: nat := 0x1000

  /** The ten 32-bit fields in the order they are packed. */
  function Words(e: IndexEntry): seq<int> {
    [e.ctimeS, e.ctimeN, e.mtimeS, e.mtimeN, e.dev, e.ino, e.mode, e.uid, e.gid, e.size]
  }

  /** Every integer fits the field `struct.pack('!LLLLLLLLLL20sH', ...)` gives it;
      otherwise Python raises `struct.error`. */
  predicate Packable(e: IndexEntry) {
    && FitsU32(e.ctimeS) && FitsU32(e.ctimeN) && FitsU32(e.mtimeS) && FitsU32(e.mtimeN)
    && FitsU32(e.dev) && FitsU32(e.ino) && FitsU32(e.mode) && FitsU32(e.uid)
    && FitsU32(e.gid) && FitsU32(e.size)
    && 0 <= e.flags < 0x1_0000
  }

  /** An unsigned 32-bit value, the range of a `L` field. */
  predicate FitsU32(n: int) {
    0 <= n < 0x1_0000_0000
  }

  /** Consecutive big-endian 32-bit words. */
  function PackWords(ws: seq<int>): (r: seq<byte>)
    requires forall i :: 0 <= i < |ws| ==> FitsU32(ws[i])
    ensures |r| == 4 * |ws|
    ensures forall i :: 0 <= i < |ws| ==> ReadBigEndian(r[4 * i..4 * i + 4]) == ws[i]
  {
    if |ws| == 0 then []
    else
      assert FitsU32(ws[0]) && Pow256(4) == 0x1_0000_0000;
      var head, tail := BigEndian(ws[0], 4), PackWords(ws[1..]);
      var r := head + tail;
      assert r[..4] == head;
      ReadBigEndianOfBigEndian(ws[0], 4);
      assert forall i :: 1 <= i < |ws| ==> r[4 * i..4 * i + 4] == tail[4 * (i - 1)..4 * (i - 1) + 4] by {
        assert r[4..] == tail;
      }
      r
  }

  /** A `20s` field: the bytes cut to 20, or NUL-padded up to 20. */
  function FixedBytes(b: seq<byte>, width: nat): (r: seq<byte>)
    ensures |r| == width
    ensures forall i :: 0 <= i < width && i < |b| ==> r[i] == b[i]
    ensures forall i :: |b| <= i < width ==> r[i] == 0
  {
    if |b| >= width then b[..width] else b + Zeros(width - |b|)
  }

  /** The fixed 62-byte head of an entry. */
  function PackHead(e: IndexEntry): (r: seq<byte>)
    requires Packable(e)
    ensures |r| == HeadSize
    ensures forall i :: 0 <= i < 10 ==> ReadBigEndian(r[4 * i..4 * i + 4]) == Words(e)[i]
    ensures r[40..60] == FixedBytes(e.sha1, DigestSize)
    ensures ReadBigEndian(r[60..62]) == e.flags
  {
    ReadBigEndianOfBigEndian(e.flags, 2);
    var words := PackWords(Words(e));
    var r := words + FixedBytes(e.sha1, DigestSize) + BigEndian(e.flags, 2);
    assert forall i :: 0 <= i < 10 ==> r[4 * i..4 * i + 4] == words[4 * i..4 * i + 4];
    r
  }

  /** `((62 + len(path) + 8) // 8) * 8`: the smallest multiple of 8 strictly
      greater than head plus path, so at least one NUL always follows the path. */
  function EntryLength(pathLength: nat): (r: nat)
    ensures r % 8 == 0
    ensures HeadSize + pathLength < r <= HeadSize + pathLength + 8
  {
    ((HeadSize + pathLength + 8) / 8) * 8
  }

  /** One packed entry: head, UTF-8 path, NUL padding to the next 8-byte boundary. */
  function PackEntry(e: IndexEntry): (r: Result<seq<byte>, PackError>)
    ensures r.Ok? <==> Packable(e)
    ensures r.Ok? ==> |r.value| == EntryLength(|Utf8.Encode(e.path)|)
    ensures r.Ok? ==> r.value[..HeadSize] == PackHead(e)
    ensures r.Ok? ==> r.value[HeadSize..HeadSize + |Utf8.Encode(e.path)|] == Utf8.Encode(e.path)
    ensures r.Ok? ==> forall i :: HeadSize + |Utf8.Encode(e.path)| <= i < |r.value| ==> r.value[i] == 0
  {
    if !Packable(e) then Err(StructError)
    else
      var path := Utf8.Encode(e.path);
      var r := PackHead(e) + path + Zeros(EntryLength(|path|) - HeadSize - |path|);
      assert r[..HeadSize] == PackHead(e);
      assert r[HeadSize..HeadSize + |path|] == path;
      Ok(r)
  }

  /** The sum of the packed lengths of `es`. */
  function TotalLength(es: seq<IndexEntry>): nat {
    if |es| == 0 then 0 else EntryLength(|Utf8.Encode(es[0].path)|) + TotalLength(es[1..])
  }

  /** The entries packed one after another, in the order given. */
  function PackEntries(es: seq<IndexEntry>): (r: Result<seq<byte>, PackError>)
    ensures r.Ok? <==> forall i :: 0 <= i < |es| ==> Packable(es[i])
    ensures r.Ok? ==> |r.value| == TotalLength(es)
  {
    if |es| == 0 then Ok([])
    else
      assert forall i :: 1 <= i < |es| ==> es[1..][i - 1] == es[i];
      var head :- PackEntry(es[0]);
      var tail :- PackEntries(es[1..]);
      Ok(head + tail)
  }

  /** Every entry's length is a multiple of 8, so the packed entries together
      fill a multiple of 8 bytes. */
  lemma {:induction false} TotalLengthAligned(es: seq<IndexEntry>)
    ensures TotalLength(es) % 8 == 0
  {
    if |es| > 0 {
      TotalLengthAligned(es[1..]);
      SumAligned(EntryLength(|Utf8.Encode(es[0].path)|), TotalLength(es[1..]));
    }
  }

  lemma SumAligned(a: nat, b: nat)
    requires a % 8 == 0 && b % 8 == 0
    ensures (a + b) % 8 == 0
  {
  }

  /** Packing entries is `b''.join` of the entries packed one by one, in order. */
  lemma {:induction false} PackEntriesJoin(es: seq<IndexEntry>, pieces: seq<seq<byte>>)
    requires |pieces| == |es| && forall i :: 0 <= i < |es| ==> PackEntry(es[i]) == Ok(pieces[i])
    ensures PackEntries(es) == Ok(Join(pieces))
  {
    if |es| > 0 {
      assert forall i :: 0 <= i < |es| - 1 ==> es[1..][i] == es[i + 1] && pieces[1..][i] == pieces[i + 1];
      PackEntriesJoin(es[1..], pieces[1..]);
    }
  }

  /** Entry `i` is packed, as `PackEntry` packs it, right after the entries
      before it, and so starts on an 8-byte boundary of the packed entries. */
  lemma {:induction false} PackEntriesAt(es: seq<IndexEntry>, packed: seq<byte>, i: nat)
    requires PackEntries(es) == Ok(packed) && i < |es|
    ensures PackEntry(es[i]).Ok?
    ensures TotalLength(es[..i]) % 8 == 0
    ensures TotalLength(es[..i]) + |PackEntry(es[i]).value| <= |packed|
    ensures packed[TotalLength(es[..i])..TotalLength(es[..i]) + |PackEntry(es[i]).value|] == PackEntry(es[i]).value
  {
    var pieces := Pieces(es);
    PiecesAt(es, pieces, i);
    TotalLengthAligned(es[..i]);
    PiecePlaced(packed, pieces, i, TotalLength(es[..i]), PackEntry(es[i]).value);
  }

  /** Each entry packed on its own, in order. */
  function Pieces(es: seq<IndexEntry>): (r: seq<seq<byte>>)
    requires forall k :: 0 <= k < |es| ==> Packable(es[k])
    ensures |r| == |es| && forall k :: 0 <= k < |es| ==> PackEntry(es[k]) == Ok(r[k])
  {
    seq(|es|, k requires 0 <= k < |es| && Packable(es[k]) => PackEntry(es[k]).value)
  }

  /** The packed entries and the first `i` of them, as joins of the entries
      packed one by one. */
  lemma {:induction false} PiecesAt(es: seq<IndexEntry>, pieces: seq<seq<byte>>, i: nat)
    requires |pieces| == |es| && forall k :: 0 <= k < |es| ==> PackEntry(es[k]) == Ok(pieces[k])
    requires i <= |es|
    ensures PackEntries(es) == Ok(Join(pieces))
    ensures TotalLength(es[..i]) == |Join(pieces[..i])|
  {
    PackEntriesJoin(es, pieces);
    PackEntriesJoin(es[..i], pieces[..i]);
  }

  lemma {:induction false} PiecePlaced(whole: seq<byte>, pieces: seq<seq<byte>>, i: nat, start: nat, piece: seq<byte>)
    requires i < |pieces| && whole == Join(pieces) && start == |Join(pieces[..i])| && piece == pieces[i]
    ensures start + |piece| <= |whole| && whole[start..start + |piece|] == piece
  {
    JoinAt(pieces, i);
  }

  /** The 12-byte header: `DIRC`, version 2 and the entry count, big-endian. */
  function IndexHeader(count: nat): (r: seq<byte>)
    requires FitsU32(count)
    ensures |r| == HeaderSize
    ensures r[..4] == Signature
    ensures ReadBigEndian(r[4..8]) == Version
    ensures ReadBigEndian(r[8..12]) == count
  {
    ReadBigEndianOfBigEndian(Version, 4);
    ReadBigEndianOfBigEndian(count, 4);
    var r := Signature + BigEndian(Version, 4) + BigEndian(count, 4);
    assert r[4..8] == BigEndian(Version, 4);
    assert r[8..12] == BigEndian(count, 4);
    r
  }

  /** The index file `writeIndex` writes: the header, the packed entries and the
      SHA-1 of both. `struct.error` if a field or the entry count does not fit. */
  function WriteIndex(es: seq<IndexEntry>, sha1: Hasher): (r: Result<seq<byte>, PackError>)
    ensures r.Ok? <==> (forall i :: 0 <= i < |es| ==> Packable(es[i])) && FitsU32(|es|)
    ensures r.Ok? ==> |r.value| == HeaderSize + TotalLength(es) + DigestSize
    ensures r.Ok? ==> r.value[..HeaderSize] == IndexHeader(|es|)
    ensures r.Ok? ==> r.value[HeaderSize..|r.value| - DigestSize] == PackEntries(es).value
    ensures r.Ok? ==> r.value[|r.value| - DigestSize..] == sha1(r.value[..|r.value| - DigestSize])
  {
    var body :- PackEntries(es);
    if !FitsU32(|es|) then Err(StructError)
    else
      var data := IndexHeader(|es|) + body;
      var r := data + sha1(data);
      assert r[..HeaderSize] == IndexHeader(|es|);
      assert r[HeaderSize..|r| - DigestSize] == body;
      assert r[..|r| - DigestSize] == data;
      Ok(r)
  }

  /** Why an index file cannot be read. */
  datatype DecodeError =
    | Truncated       // shorter than header and trailer, or an entry runs past the data
    | IntegrityError  // the trailer is not the SHA-1 of the bytes before it
    | FormatError     // wrong signature or version
    | CountMismatch   // the data holds fewer or more entries than the header declares
    | BadPath         // a path is not valid UTF-8

  /** The big-endian 32-bit word at word position `i`. */
  function WordAt(s: seq<byte>, i: nat): nat
    requires 4 * i + 4 <= |s|
  {
    ReadBigEndian(s[4 * i..4 * i + 4])
  }

  /** Reads the entry at the start of `body`, returning it with the number of
      bytes it occupies: the path length is the low 12 bits of the flags, and
      the padding is skipped by the encoder's own length formula. */
  function ParseEntry(body: seq<byte>): (r: Result<(IndexEntry, nat), DecodeError>)
    ensures r.Ok? ==> r.value.1 <= |body| && r.value.1 % 8 == 0 && r.value.1 > HeadSize
    ensures r.Ok? ==> r.value.0.flags % NameLimit == |Utf8.Encode(r.value.0.path)|
    ensures r.Ok? ==> r.value.1 == EntryLength(|Utf8.Encode(r.value.0.path)|)
  {
    if |body| < HeadSize then Err(Truncated)
    else
      var flags := ReadBigEndian(body[60..62]);
      var pathLength := flags % NameLimit;
      var length := EntryLength(pathLength);
      if |body| < length then Err(Truncated)
      else
        match Utf8.Decode(body[HeadSize..HeadSize + pathLength])
        case None => Err(BadPath)
        case Some(path) =>
          Utf8.EncodeDecode(body[HeadSize..HeadSize + pathLength]);
          var e := IndexEntry(
            WordAt(body, 0), WordAt(body, 1), WordAt(body, 2), WordAt(body, 3), WordAt(body, 4),
            WordAt(body, 5), WordAt(body, 6), WordAt(body, 7), WordAt(body, 8), WordAt(body, 9),
            body[40..60], flags, path);
          Ok((e, length))
  }

  /** Reads exactly `count` entries that together fill `body`. */
  function ParseEntries(body: seq<byte>, count: nat): (r: Result<seq<IndexEntry>, DecodeError>)
    ensures r.Ok? ==> |r.value| == count
    decreases count
  {
    if count == 0 then
      if |body| == 0 then Ok([]) else Err(CountMismatch)
    else if |body| == 0 then Err(CountMismatch)
    else
      var (e, length) :- ParseEntry(body);
      var rest :- ParseEntries(body[length..], count - 1);
      Ok([e] + rest)
  }

  /** Reads an index file: trailer first, then signature and version, then
      exactly the declared number of entries. */
  function ParseIndex(f: seq<byte>, sha1: Hasher): (r: Result<seq<IndexEntry>, DecodeError>)
    ensures r.Ok? ==> |f| >= HeaderSize + DigestSize
    ensures r.Ok? ==> f[|f| - DigestSize..] == sha1(f[..|f| - DigestSize])
    ensures r.Ok? ==> f[..4] == Signature && ReadBigEndian(f[4..8]) == Version
    ensures r.Ok? ==> |r.value| == ReadBigEndian(f[8..12])
  {
    if |f| < HeaderSize + DigestSize then Err(Truncated)
    else
      var data := f[..|f| - DigestSize];
      if sha1(data) != f[|f| - DigestSize..] then Err(IntegrityError)
      else if data[..4] != Signature || ReadBigEndian(data[4..8]) != Version then Err(FormatError)
      else
        assert f[..4] == data[..4] && f[4..8] == data[4..8] && f[8..12] == data[8..12];
        ParseEntries(data[HeaderSize..], ReadBigEndian(data[8..12]))
  }

  /** An entry the decoder can give back unchanged: its fields fit, its digest
      has exactly 20 bytes, and the low 12 bits of its flags hold its path length. */
  predicate WellFormed(e: IndexEntry) {
    && Packable(e)
    && |e.sha1| == DigestSize
    && e.flags % NameLimit == |Utf8.Encode(e.path)|
  }

  /** The head's ten words read back as the entry's integer fields. */
  lemma HeadFields(e: IndexEntry, body: seq<byte>)
    requires Packable(e)
    requires |body| >= HeadSize && body[..HeadSize] == PackHead(e)
    ensures WordAt(body, 0) == e.ctimeS && WordAt(body, 1) == e.ctimeN
    ensures WordAt(body, 2) == e.mtimeS && WordAt(body, 3) == e.mtimeN
    ensures WordAt(body, 4) == e.dev && WordAt(body, 5) == e.ino
    ensures WordAt(body, 6) == e.mode && WordAt(body, 7) == e.uid
    ensures WordAt(body, 8) == e.gid && WordAt(body, 9) == e.size
  {
    HeadWord(e, body, 0); HeadWord(e, body, 1); HeadWord(e, body, 2); HeadWord(e, body, 3);
    HeadWord(e, body, 4); HeadWord(e, body, 5); HeadWord(e, body, 6); HeadWord(e, body, 7);
    HeadWord(e, body, 8); HeadWord(e, body, 9);
  }

  /** The head's digest and flags read back as the entry's. */
  lemma HeadDigestAndFlags(e: IndexEntry, body: seq<byte>)
    requires Packable(e) && |e.sha1| == DigestSize
    requires |body| >= HeadSize && body[..HeadSize] == PackHead(e)
    ensures body[40..60] == e.sha1
    ensures ReadBigEndian(body[60..62]) == e.flags
  {
    var head := PackHead(e);
    assert body[40..60] == head[40..60];
    assert body[60..62] == head[60..62];
    assert FixedBytes(e.sha1, DigestSize) == e.sha1;
  }

  /** The `i`-th word of a packed head reads back as the `i`-th field. */
  lemma HeadWord(e: IndexEntry, body: seq<byte>, i: nat)
    requires Packable(e) && i < 10
    requires |body| >= HeadSize && body[..HeadSize] == PackHead(e)
    ensures WordAt(body, i) == Words(e)[i]
  {
    assert body[4 * i..4 * i + 4] == PackHead(e)[4 * i..4 * i + 4];
  }

  /** The decoder reads a packed entry back, whatever follows it. */
  lemma ParseEntryOfPackEntry(e: IndexEntry, rest: seq<byte>)
    requires WellFormed(e)
    ensures PackEntry(e).Ok?
    ensures ParseEntry(PackEntry(e).value + rest) == Ok((e, |PackEntry(e).value|))
  {
    var packed := PackEntry(e).value;
    var body := packed + rest;
    var path := Utf8.Encode(e.path);
    assert body[..HeadSize] == PackHead(e);
    HeadFields(e, body);
    HeadDigestAndFlags(e, body);
    assert body[HeadSize..HeadSize + |path|] == path;
    Utf8.DecodeEncode(e.path);
    var flags := ReadBigEndian(body[60..62]);
    assert flags % NameLimit == |path| && EntryLength(|path|) == |packed| <= |body|;
    assert Utf8.Decode(body[HeadSize..HeadSize + flags % NameLimit]) == Some(e.path);
    assert e == IndexEntry(
      WordAt(body, 0), WordAt(body, 1), WordAt(body, 2), WordAt(body, 3), WordAt(body, 4),
      WordAt(body, 5), WordAt(body, 6), WordAt(body, 7), WordAt(body, 8), WordAt(body, 9),
      body[40..60], flags, e.path);
  }

  /** The packed entries of a non-empty sequence: its first entry, then the rest. */
  lemma PackEntriesCons(es: seq<IndexEntry>) returns (head: seq<byte>, tail: seq<byte>)
    requires |es| > 0 && PackEntries(es).Ok?
    ensures PackEntry(es[0]) == Ok(head) && PackEntries(es[1..]) == Ok(tail)
    ensures PackEntries(es).value == head + tail
  {
    head, tail := PackEntry(es[0]).value, PackEntries(es[1..]).value;
  }

  /** A packed well-formed entry in front of `count` readable entries makes
      `count + 1` readable entries, the new one first. */
  lemma ParseEntriesCons(e: IndexEntry, head: seq<byte>, tail: seq<byte>, count: nat, rest: seq<IndexEntry>)
    requires WellFormed(e) && PackEntry(e) == Ok(head)
    requires ParseEntries(tail, count) == Ok(rest)
    ensures ParseEntries(head + tail, count + 1) == Ok([e] + rest)
  {
    ParseEntryOfPackEntry(e, tail);
    assert (head + tail)[|head|..] == tail;
  }

  /** Every entry of `es` is well formed, stated entry by entry from the front. */
  predicate AllWellFormed(es: seq<IndexEntry>) {
    |es| == 0 || (WellFormed(es[0]) && AllWellFormed(es[1..]))
  }

  /** The entry-by-entry form follows from the quantified one. */
  lemma {:induction false} AllWellFormedOfEach(es: seq<IndexEntry>)
    requires forall i :: 0 <= i < |es| ==> WellFormed(es[i])
    ensures AllWellFormed(es)
  {
    if |es| > 0 {
      assert WellFormed(es[0]);
      assert forall i :: 0 <= i < |es| - 1 ==> es[1..][i] == es[i + 1];
      AllWellFormedOfEach(es[1..]);
    }
  }

  /** The decoder reads back every sequence of well-formed packed entries. */
  lemma {:induction false} ParseEntriesOfPackEntries(es: seq<IndexEntry>)
    requires AllWellFormed(es)
    ensures PackEntries(es).Ok?
    ensures ParseEntries(PackEntries(es).value, |es|) == Ok(es)
  {
    if |es| > 0 {
      ParseEntriesOfPackEntries(es[1..]);
      var head, tail := PackEntriesCons(es);
      ParseEntriesCons(es[0], head, tail, |es| - 1, es[1..]);
      assert [es[0]] + es[1..] == es;
    }
  }

  /** Reading an index file whose trailer checks and whose header is `DIRC`,
      version 2, `count`: the entries of its body. */
  lemma ParseIndexOfParts(f: seq<byte>, sha1: Hasher, count: nat, body: seq<byte>)
    requires FitsU32(count)
    requires f == IndexHeader(count) + body + sha1(IndexHeader(count) + body)
    ensures ParseIndex(f, sha1) == ParseEntries(body, count)
  {
    var header := IndexHeader(count);
    var data := header + body;
    assert f[..|f| - DigestSize] == data;
    assert f[|f| - DigestSize..] == sha1(data);
    assert data[..4] == header[..4] && data[4..8] == header[4..8] && data[8..12] == header[8..12];
    assert data[HeaderSize..] == body;
  }

  /** Round trip: reading the file `writeIndex` writes gives back the entries,
      in the order they were written. */
  lemma ParseIndexOfWriteIndex(es: seq<IndexEntry>, sha1: Hasher)
    requires forall i :: 0 <= i < |es| ==> WellFormed(es[i])
    requires FitsU32(|es|)
    ensures WriteIndex(es, sha1).Ok?
    ensures ParseIndex(WriteIndex(es, sha1).value, sha1) == Ok(es)
  {
    AllWellFormedOfEach(es);
    ParseEntriesOfPackEntries(es);
    var body := PackEntries(es).value;
    var f := WriteIndex(es, sha1).value;
    assert f == IndexHeader(|es|) + body + sha1(IndexHeader(|es|) + body);
    ParseIndexOfParts(f, sha1, |es|, body);
  }

  /** A file whose header or entries were altered while its trailer was kept
      is rejected as corrupt, provided the hash does not collide on the
      original and the altered bytes. */
  lemma AlteredBodyIsRejected(es: seq<IndexEntry>, sha1: Hasher, g: seq<byte>)
    requires WriteIndex(es, sha1).Ok?
    requires |g| == |WriteIndex(es, sha1).value|
    requires g[|g| - DigestSize..] == WriteIndex(es, sha1).value[|g| - DigestSize..]
    requires g[..|g| - DigestSize] != WriteIndex(es, sha1).value[..|g| - DigestSize]
    requires Separates(sha1, g[..|g| - DigestSize], WriteIndex(es, sha1).value[..|g| - DigestSize])
    ensures ParseIndex(g, sha1) == Err(IntegrityError)
  {
  }

  /** A file whose trailer was altered while everything before it was kept is
      rejected as corrupt, whatever the hash. */
  lemma AlteredTrailerIsRejected(es: seq<IndexEntry>, sha1: Hasher, g: seq<byte>)
    requires WriteIndex(es, sha1).Ok?
    requires |g| == |WriteIndex(es, sha1).value|
    requires g[..|g| - DigestSize] == WriteIndex(es, sha1).value[..|g| - DigestSize]
    requires g[|g| - DigestSize..] != WriteIndex(es, sha1).value[|g| - DigestSize..]
    ensures ParseIndex(g, sha1) == Err(IntegrityError)
  {
  }
}

=== FILE: objects.dfy ===
/** The object store's pure part (corsair/mygit.py, `hashObject`): the typed,
    length-prefixed envelope, the object id and the object's storage path. */
module Objects {
  import opened Outcomes
  import opened Bytes
  import Utf8
  import Hex
  import Decimal
  import opened WorkTree
  import opened Sequences

  /** The header text `"<type> <decimal length>"` encoded as UTF-8. */
  function Header(objType: string, size: nat): (r: seq<byte>)
    ensures Utf8.Decode(r) == Some(objType + " " + Decimal.Render(size))
  {
    var text := objType + " " + Decimal.Render(size);
    Utf8.DecodeEncode(text);
    Utf8.Encode(text)
  }

  /** The byte string that is hashed and stored: header, one NUL, then the content. */
  function Envelope(objType: string, data: seq<byte>): (r: seq<byte>)
    ensures |r| == |Header(objType, |data|)| + 1 + |data|
    ensures r[..|r| - |data|] == Header(objType, |data|) + [0]
    ensures r[|r| - |data|..] == data
  {
    Header(objType, |data|) + [0] + data
  }

  /** Reads an envelope back: the header runs to the first NUL, the type to the
      last space of the header, and the decimal length must be written without
      leading zeros and must equal the length of what follows the NUL. */
  function ParseEnvelope(e: seq<byte>): (r: Option<(string, seq<byte>)>)
    ensures r.Some? ==> Envelope(r.value.0, r.value.1) == e
  {
    match FirstIndexOf(e, 0)
    case None => None
    case Some(nul) =>
      match Utf8.Decode(e[..nul])
      case None => None
      case Some(text) =>
        match LastIndexOf(text, ' ')
        case None => None
        case Some(sp) =>
          var objType, sizeText, data := text[..sp], text[sp + 1..], e[nul + 1..];
          if forall i :: 0 <= i < |sizeText| ==> Decimal.IsDigit(sizeText[i]) then
            if Decimal.Render(Decimal.Parse(sizeText)) == sizeText
               && Decimal.Parse(sizeText) == |data|
            then
              EnvelopeOfParts(e, nul, text, sp);
              Some((objType, data))
            else None
          else None
  }

  /** The parts `ParseEnvelope` accepts put back together give the envelope. */
  lemma EnvelopeOfParts(e: seq<byte>, nul: nat, text: string, sp: nat)
    requires nul < |e| && e[nul] == 0
    requires Utf8.Decode(e[..nul]) == Some(text)
    requires sp < |text| && text[sp] == ' '
    requires Decimal.Render(|e| - nul - 1) == text[sp + 1..]
    ensures Envelope(text[..sp], e[nul + 1..]) == e
  {
    var objType, data := text[..sp], e[nul + 1..];
    var header := e[..nul];
    assert text == objType + " " + Decimal.Render(|data|);
    assert Header(objType, |data|) == header by {
      Utf8.EncodeDecode(header);
    }
    assert e == header + [0] + data;
  }

  /** The header of an object whose type has no NUL character holds no NUL byte. */
  lemma HeaderHasNoNul(objType: string, size: nat)
    requires '\0' !in objType
    ensures 0 !in Header(objType, size)
  {
    var text := objType + " " + Decimal.Render(size);
    assert '\0' !in text by {
      assert forall i :: 0 <= i < |text| && i > |objType| ==> Decimal.IsDigit(text[i]);
    }
    Utf8.EncodeHasNul(text);
  }

  /** Every envelope of an object type without NUL parses back to its type and content. */
  lemma ParseEnvelopeOfEnvelope(objType: string, data: seq<byte>)
    requires '\0' !in objType
    ensures ParseEnvelope(Envelope(objType, data)) == Some((objType, data))
  {
    var h := Header(objType, |data|);
    var e := Envelope(objType, data);
    var digits := Decimal.Render(|data|);
    var text := objType + " " + digits;
    HeaderHasNoNul(objType, |data|);
    FirstIndexOfSeparator(h, 0, data);
    assert e[..|h|] == h;
    Utf8.DecodeEncode(text);
    assert ' ' !in digits by {
      assert forall i :: 0 <= i < |digits| ==> Decimal.IsDigit(digits[i]);
    }
    LastIndexOfSeparator(objType, ' ', digits);
    assert text[|objType| + 1..] == digits;
    assert text[..|objType|] == objType;
    Decimal.ParseRender(|data|);
    assert e[|h| + 1..] == data;
  }

  /** The same envelope can only come from the same type and the same content. */
  lemma EnvelopeInjective(t1: string, d1: seq<byte>, t2: string, d2: seq<byte>)
    requires '\0' !in t1 && '\0' !in t2
    ensures Envelope(t1, d1) == Envelope(t2, d2) <==> t1 == t2 && d1 == d2
  {
    ParseEnvelopeOfEnvelope(t1, d1);
    ParseEnvelopeOfEnvelope(t2, d2);
  }

  /** The object id: the lower-case hexadecimal SHA-1 of the envelope. */
  function ObjectId(sha1: Hasher, objType: string, data: seq<byte>): (id: string)
    ensures |id| == 2 * DigestSize
    ensures forall i :: 0 <= i < |id| ==> Hex.IsLowerHexDigit(id[i])
    ensures Hex.FromHex(id) == Some(sha1(Envelope(objType, data)))
  {
    var digest := sha1(Envelope(objType, data));
    Hex.FromHexToHex(digest);
    Hex.ToHex(digest)
  }

  /** Content addressing: with a hash that separates the two envelopes, two
      contents of one type get the same id exactly when they are equal. */
  lemma ObjectIdIdentifiesContent(sha1: Hasher, objType: string, a: seq<byte>, b: seq<byte>)
    requires '\0' !in objType
    requires Separates(sha1, Envelope(objType, a), Envelope(objType, b))
    ensures ObjectId(sha1, objType, a) == ObjectId(sha1, objType, b) <==> a == b
  {
    if ObjectId(sha1, objType, a) == ObjectId(sha1, objType, b) {
      Hex.ToHexInjective(sha1(Envelope(objType, a)), sha1(Envelope(objType, b)));
      EnvelopeInjective(objType, a, objType, b);
    }
  }

  /** A hexadecimal object id as `hexdigest()` returns it. */
  predicate IsObjectId(id: string) {
    |id| == 2 * DigestSize && forall i :: 0 <= i < |id| ==> Hex.IsLowerHexDigit(id[i])
  }

  /** Where an object lives: a two-character directory and a 38-character file name. */
  datatype Location = Location(dir: string, file: string)

  /** `sha1[:2]` and `sha1[2:]`. */
  function ObjectLocation(id: string): (loc: Location)
    requires IsObjectId(id)
    ensures |loc.dir| == 2 && |loc.file| == 2 * DigestSize - 2
    ensures loc.dir + loc.file == id
  {
    Location(id[..2], id[2..])
  }

  /** The directory under which objects are stored. */
  const ObjectsDir: string := ".git/objects/"

  /** `os.path.join('.git', 'objects', sha1[:2], sha1[2:])`. */
  function ObjectPath(id: string): (p: string)
    requires IsObjectId(id)
    ensures |p| == |ObjectsDir| + |id| + 1
    ensures p[..|ObjectsDir|] == ObjectsDir
  {
    var loc := ObjectLocation(id);
    ObjectsDir + loc.dir + "/" + loc.file
  }

  /** The object id stored at a path of the object store, if it is one. */
  function IdOfObjectPath(p: string): (r: Option<string>)
    ensures r.Some? ==> IsObjectId(r.value) && ObjectPath(r.value) == p
  {
    var n := |ObjectsDir|;
    if |p| == n + 2 * DigestSize + 1 && p[..n] == ObjectsDir && p[n + 2] == '/' then
      var id := p[n..n + 2] + p[n + 3..];
      if IsObjectId(id) then
        assert p == ObjectsDir + id[..2] + "/" + id[2..];
        Some(id)
      else None
    else None
  }

  /** The storage path determines the id: reading it back gives the id it was built from. */
  lemma IdOfObjectPathOfObjectPath(id: string)
    requires IsObjectId(id)
    ensures IdOfObjectPath(ObjectPath(id)) == Some(id)
  {
    var p := ObjectPath(id);
    var n := |ObjectsDir|;
    assert p[n..n + 2] == id[..2];
    assert p[n + 3..] == id[2..];
  }

  /** What `hashObject` does with a file: the id it returns and, when asked to
      write, the location and the uncompressed envelope it stores there. */
  datatype Hashed = Hashed(id: string, stored: Option<(string, seq<byte>)>)

  datatype ObjectError = NotFound(path: string)

  /** `hashObject(fName, objType, write)`: `NotFound` when the file cannot be opened. */
  function HashObject(fs: Snapshot, name: string, objType: string, write: bool, sha1: Hasher)
    : (r: Result<Hashed, ObjectError>)
    ensures r.Err? <==> name !in fs
    ensures r.Err? ==> r.error == NotFound(name)
    ensures r.Ok? ==> IsObjectId(r.value.id)
    ensures r.Ok? ==> Hex.FromHex(r.value.id) == Some(sha1(Envelope(objType, fs[name].content)))
    ensures r.Ok? ==> (r.value.stored.Some? <==> write)
    ensures r.Ok? && write ==>
      IdOfObjectPath(r.value.stored.value.0) == Some(r.value.id)
      && r.value.stored.value.1 == Envelope(objType, fs[name].content)
    ensures r.Ok? && write && '\0' !in objType ==>
      ParseEnvelope(r.value.stored.value.1) == Some((objType, fs[name].content))
  {
    if name !in fs then Err(NotFound(name))
    else
      var data := fs[name].content;
      var id := ObjectId(sha1, objType, data);
      if write then
        IdOfObjectPathOfObjectPath(id);
        assert '\0' !in objType ==> ParseEnvelope(Envelope(objType, data)) == Some((objType, data)) by {
          if '\0' !in objType {
            ParseEnvelopeOfEnvelope(objType, data);
          }
        }
        Ok(Hashed(id, Some((ObjectPath(id), Envelope(objType, data)))))
      else Ok(Hashed(id, None))
  }

  /** Deduplication: two files with byte-identical content get the same id
      and, when written, the same object at the same path. */
  lemma HashObjectDeduplicates(fs: Snapshot, a: string, b: string, objType: string, write: bool, sha1: Hasher)
    requires a in fs && b in fs && fs[a].content == fs[b].content
    ensures HashObject(fs, a, objType, write, sha1) == HashObject(fs, b, objType, write, sha1)
  {
  }
}

=== FILE: outcomes.dfy ===
/** Optional values and results that carry an error, usable with `:-`. */
module Outcomes {

  datatype Option<+T> = None | Some(value: T)

  datatype Result<+T, +E> = Ok(value: T) | Err(error: E) {

    predicate IsFailure() {
      Err?
    }

    function PropagateFailure<U>(): Result<U, E>
      requires Err?
    {
      Err(error)
    }

    function Extract(): T
      requires Ok?
    {
      value
    }
  }
}

=== FILE: sequences.dfy ===
/** Searching a sequence for a separator, as the envelope reader of this
    model does, and laying sequences end to end, as the index writer does. */
module Sequences {
  import opened Outcomes

  /** The position of the first occurrence of `x` in `s`. */
  function FirstIndexOf<T(==)>(s: seq<T>, x: T): (r: Option<nat>)
    ensures r.None? <==> x !in s
    ensures r.Some? ==> r.value < |s| && s[r.value] == x && x !in s[..r.value]
  {
    if |s| == 0 then None
    else if s[0] == x then Some(0)
    else
      match FirstIndexOf(s[1..], x)
      case None => None
      case Some(i) =>
        assert s[..i + 1] == [s[0]] + s[1..][..i];
        Some(i + 1)
  }

  /** The position of the last occurrence of `x` in `s`. */
  function LastIndexOf<T(==)>(s: seq<T>, x: T): (r: Option<nat>)
    ensures r.None? <==> x !in s
    ensures r.Some? ==> r.value < |s| && s[r.value] == x && x !in s[r.value + 1..]
  {
    if |s| == 0 then None
    else if s[|s| - 1] == x then Some(|s| - 1)
    else
      match LastIndexOf(s[..|s| - 1], x)
      case None => None
      case Some(i) =>
        assert s[i + 1..] == s[..|s| - 1][i + 1..] + [s[|s| - 1]];
        Some(i)
  }

  /** The first `x` in `a + [x] + b` is the one after `a` when `a` holds none. */
  lemma {:induction false} FirstIndexOfSeparator<T>(a: seq<T>, x: T, b: seq<T>)
    requires x !in a
    ensures FirstIndexOf(a + [x] + b, x) == Some(|a|)
  {
    if |a| > 0 {
      assert (a + [x] + b)[1..] == a[1..] + [x] + b;
      FirstIndexOfSeparator(a[1..], x, b);
    }
  }

  /** The last `x` in `a + [x] + b` is the one after `a` when `b` holds none. */
  lemma {:induction false} LastIndexOfSeparator<T>(a: seq<T>, x: T, b: seq<T>)
    requires x !in b
    ensures LastIndexOf(a + [x] + b, x) == Some(|a|)
  {
    var s := a + [x] + b;
    if |b| > 0 {
      assert s[|s| - 1] == b[|b| - 1];
      assert s[..|s| - 1] == a + [x] + b[..|b| - 1];
      LastIndexOfSeparator(a, x, b[..|b| - 1]);
    }
  }

  /** The parts laid end to end, in order. */
  function Join<T>(parts: seq<seq<T>>): seq<T> {
    if |parts| == 0 then [] else parts[0] + Join(parts[1..])
  }

  /** Part `i` of a join sits whole right after the parts before it. */
  lemma {:induction false} JoinAt<T>(parts: seq<seq<T>>, i: nat)
    requires i < |parts|
    ensures |Join(parts[..i])| + |parts[i]| <= |Join(parts)|
    ensures Join(parts)[|Join(parts[..i])|..|Join(parts[..i])| + |parts[i]|] == parts[i]
  {
    if i == 0 {
      assert parts[..i] == [];
      assert Join(parts)[..|parts[0]|] == parts[0];
    } else {
      JoinAt(parts[1..], i - 1);
      assert parts[..i][0] == parts[0];
      assert parts[..i][1..] == parts[1..][..i - 1];
      assert parts[1..][i - 1] == parts[i];
      assert Join(parts)[|parts[0]|..] == Join(parts[1..]);
    }
  }
}

=== FILE: stage.dfy ===
/** Staging (corsair/mygit.py, `add`): one index entry per path, in the order
    the paths are given, and the index rewritten after every path. */
module Stage {
  import opened Outcomes
  import opened Bytes
  import Utf8
  import opened WorkTree
  import opened Objects
  import opened Index

  /** Why `add` stops: a path that cannot be opened, a path whose UTF-8 length
      does not fit 12 bits (the source's `assert`), or a `struct.error`. */
  datatype AddError = Missing(path: string) | NameTooLong(path: string) | Pack(error: PackError)

  /** The entry `add` builds for `path`: the blob id as raw bytes, the `os.stat`
      fields with zero nanoseconds, and the UTF-8 path length as the flags. */
  function MakeEntry(fs: Snapshot, path: string, sha1: Hasher): (r: Result<IndexEntry, AddError>)
    ensures r.Err? <==> path !in fs || |Utf8.Encode(path)| >= NameLimit
    ensures path !in fs ==> r == Err(Missing(path))
    ensures path in fs && |Utf8.Encode(path)| >= NameLimit ==> r == Err(NameTooLong(path))
    ensures r.Ok? ==> r.value.path == path
    ensures r.Ok? ==> r.value.flags == |Utf8.Encode(path)| < NameLimit
    ensures r.Ok? ==> r.value.flags % NameLimit == r.value.flags
    ensures r.Ok? ==> r.value.sha1 == sha1(Envelope("blob", fs[path].content))
    ensures r.Ok? ==> r.value.ctimeN == 0 && r.value.mtimeN == 0
    ensures r.Ok? ==> var st := fs[path].stat;
      && r.value.ctimeS == st.ctime && r.value.mtimeS == st.mtime
      && r.value.dev == st.dev && r.value.ino == st.ino && r.value.mode == st.mode
      && r.value.uid == st.uid && r.value.gid == st.gid && r.value.size == st.size
  {
    match HashObject(fs, path, "blob", false, sha1)
    case Err(NotFound(p)) => Err(Missing(p))
    case Ok(hashed) =>
      var st := fs[path].stat;
      var flags := |Utf8.Encode(path)|;
      if flags >= NameLimit then Err(NameTooLong(path))
      else
        var raw := Hex.FromHex(hashed.id).value;
        Ok(IndexEntry(st.ctime, 0, st.mtime, 0, st.dev, st.ino, st.mode,
                      st.uid, st.gid, st.size, raw, flags, path))
  }

  /** For a path of ASCII characters the flags are its character count. */
  lemma AsciiPathFlags(fs: Snapshot, path: string, sha1: Hasher)
    requires forall i :: 0 <= i < |path| ==> path[i] as int < 0x80
    requires MakeEntry(fs, path, sha1).Ok?
    ensures MakeEntry(fs, path, sha1).value.flags == |path|
  {
    Utf8.EncodeAscii(path);
  }

  /** The entries for `paths`, all built before anything is written: the
      reference the staging loop is compared with. */
  function BuildEntries(fs: Snapshot, paths: seq<string>, sha1: Hasher)
    : (r: Result<seq<IndexEntry>, AddError>)
    ensures r.Ok? <==> forall i :: 0 <= i < |paths| ==> MakeEntry(fs, paths[i], sha1).Ok?
    ensures r.Ok? ==> |r.value| == |paths|
    ensures r.Ok? ==> forall i :: 0 <= i < |paths| ==> MakeEntry(fs, paths[i], sha1) == Ok(r.value[i])
  {
    if |paths| == 0 then Ok([])
    else
      var last := |paths| - 1;
      var init := paths[..last];
      assert forall i :: 0 <= i < last ==> init[i] == paths[i];
      var es :- BuildEntries(fs, init, sha1);
      var e :- MakeEntry(fs, paths[last], sha1);
      Ok(es + [e])
  }

  /** The index file present after staging `paths` in one batch: none when no
      path is given (nothing is written), otherwise the encoding of all entries. */
  function StagedIndex(fs: Snapshot, paths: seq<string>, sha1: Hasher)
    : (r: Result<Option<seq<byte>>, AddError>)
    ensures r.Ok? ==> (r.value.None? <==> |paths| == 0)
  {
    var es :- BuildEntries(fs, paths, sha1);
    if |es| == 0 then Ok(None)
    else
      match WriteIndex(es, sha1)
      case Err(err) => Err(Pack(err))
      case Ok(f) => Ok(Some(f))
  }

  /** Once staging a prefix of the paths fails, staging all of them fails. */
  lemma StagedIndexFailurePersists(fs: Snapshot, paths: seq<string>, k: nat, sha1: Hasher)
    requires k <= |paths|
    requires StagedIndex(fs, paths[..k], sha1).Err?
    ensures StagedIndex(fs, paths, sha1).Err?
  {
    var prefix := paths[..k];
    if BuildEntries(fs, prefix, sha1).Err? {
      BuildFailurePersists(fs, paths, k, sha1);
    } else if BuildEntries(fs, paths, sha1).Ok? {
      var pes, es := BuildEntries(fs, prefix, sha1).value, BuildEntries(fs, paths, sha1).value;
      assert |pes| > 0 && WriteIndex(pes, sha1).Err?;
      PackFailurePersists(fs, paths, k, pes, es, sha1);
    }
  }

  /** An entry that cannot be built for the prefix cannot be built for all the paths. */
  lemma BuildFailurePersists(fs: Snapshot, paths: seq<string>, k: nat, sha1: Hasher)
    requires k <= |paths| && BuildEntries(fs, paths[..k], sha1).Err?
    ensures BuildEntries(fs, paths, sha1).Err?
  {
    var i :| 0 <= i < k && MakeEntry(fs, paths[..k][i], sha1).Err?;
    assert paths[..k][i] == paths[i];
  }

  /** Entries of the prefix that cannot be packed cannot be packed among all the entries. */
  lemma PackFailurePersists(fs: Snapshot, paths: seq<string>, k: nat, pes: seq<IndexEntry>, es: seq<IndexEntry>, sha1: Hasher)
    requires k <= |paths|
    requires BuildEntries(fs, paths[..k], sha1) == Ok(pes) && BuildEntries(fs, paths, sha1) == Ok(es)
    requires WriteIndex(pes, sha1).Err?
    ensures WriteIndex(es, sha1).Err?
  {
    if FitsU32(|es|) {
      var i :| 0 <= i < |pes| && !Packable(pes[i]);
      EntriesAgree(fs, paths, k, pes, es, sha1, i);
    }
  }

  /** The prefix's entries are the first entries of all the paths. */
  lemma EntriesAgree(fs: Snapshot, paths: seq<string>, k: nat, pes: seq<IndexEntry>, es: seq<IndexEntry>, sha1: Hasher, i: nat)
    requires k <= |paths| && i < k
    requires BuildEntries(fs, paths[..k], sha1) == Ok(pes) && BuildEntries(fs, paths, sha1) == Ok(es)
    ensures i < |pes| && i < |es| && pes[i] == es[i]
  {
    assert paths[..k][i] == paths[i];
  }

  /** Staging one more path whose entry cannot be built: the batch of
      `k + 1` paths fails with that entry's error. */
  lemma StagedIndexEntryFails(fs: Snapshot, paths: seq<string>, k: nat, entries: seq<IndexEntry>, sha1: Hasher)
    requires k < |paths|
    requires BuildEntries(fs, paths[..k], sha1) == Ok(entries)
    requires MakeEntry(fs, paths[k], sha1).Err?
    ensures StagedIndex(fs, paths[..k + 1], sha1) == Err(MakeEntry(fs, paths[k], sha1).error)
  {
    var next := paths[..k + 1];
    assert next[..k] == paths[..k];
    assert next[k] == paths[k];
  }

  /** Staging one more path whose entry is built: the batch of `k + 1` paths
      has the entries so far plus the new one, and its index is the new index,
      or fails with the packing error of the new index. */
  lemma StagedIndexStep(fs: Snapshot, paths: seq<string>, k: nat, entries: seq<IndexEntry>, sha1: Hasher)
    requires k < |paths|
    requires BuildEntries(fs, paths[..k], sha1) == Ok(entries)
    requires MakeEntry(fs, paths[k], sha1).Ok?
    ensures
      var next := entries + [MakeEntry(fs, paths[k], sha1).value];
      && BuildEntries(fs, paths[..k + 1], sha1) == Ok(next)
      && (WriteIndex(next, sha1).Ok? ==> StagedIndex(fs, paths[..k + 1], sha1) == Ok(Some(WriteIndex(next, sha1).value)))
      && (WriteIndex(next, sha1).Err? ==> StagedIndex(fs, paths[..k + 1], sha1) == Err(Pack(WriteIndex(next, sha1).error)))
  {
    var next := paths[..k + 1];
    assert next[..k] == paths[..k];
    assert next[k] == paths[k];
  }

  /** One turn of `add`'s loop: build the entry for path `k`, append it to the
      entries of the paths before it and encode the index. Either the error
      that staging `k + 1` paths in one batch raises, or the new entries and
      the file that batch writes. */
  method StagePath(fs: Snapshot, paths: seq<string>, k: nat, entries: seq<IndexEntry>, sha1: Hasher)
    returns (err: Option<AddError>, next: seq<IndexEntry>, f: seq<byte>)
    requires k < |paths|
    requires BuildEntries(fs, paths[..k], sha1) == Ok(entries)
    ensures err.Some? ==> StagedIndex(fs, paths[..k + 1], sha1) == Err(err.value)
    ensures err.None? ==> BuildEntries(fs, paths[..k + 1], sha1) == Ok(next)
    ensures err.None? ==> StagedIndex(fs, paths[..k + 1], sha1) == Ok(Some(f))
  {
    next, f := entries, [];
    var made := MakeEntry(fs, paths[k], sha1);
    if made.Err? {
      StagedIndexEntryFails(fs, paths, k, entries, sha1);
      return Some(made.error), next, f;
    }
    StagedIndexStep(fs, paths, k, entries, sha1);
    next := entries + [made.value];
    var written := WriteIndex(next, sha1);
    if written.Err? {
      return Some(Pack(written.error)), next, f;
    }
    return None, next, written.value;
  }

  /** `add(paths)`: for each path in turn, build its entry, append it and
      rewrite the whole index. Returns the error that stopped it, if any, how
      many paths had been staged when the index was last written, and that
      file. The file this call last wrote, if any, is exactly the batch encoding
      of the paths staged so far (`None` when it wrote nothing, leaving any
      earlier index in place); on failure, the error is the one staging the
      next path raises; `add` succeeds exactly when the batch does. */
  method Add(fs: Snapshot, paths: seq<string>, sha1: Hasher)
    returns (err: Option<AddError>, staged: nat, onDisk: Option<seq<byte>>)
    ensures staged <= |paths|
    ensures StagedIndex(fs, paths[..staged], sha1) == Ok(onDisk)
    ensures err.None? <==> StagedIndex(fs, paths, sha1).Ok?
    ensures err.None? ==> staged == |paths| && Ok(onDisk) == StagedIndex(fs, paths, sha1)
    ensures err.Some? ==> staged < |paths| && StagedIndex(fs, paths[..staged + 1], sha1) == Err(err.value)
  {
    var entries: seq<IndexEntry> := [];
    err, staged, onDisk := None, 0, None;
    while staged < |paths| && err.None?
      decreases |paths| - staged, if err.None? then 1 else 0
      invariant staged <= |paths|
      invariant BuildEntries(fs, paths[..staged], sha1) == Ok(entries)
      invariant StagedIndex(fs, paths[..staged], sha1) == Ok(onDisk)
      invariant err.Some? ==> staged < |paths| && StagedIndex(fs, paths[..staged + 1], sha1) == Err(err.value)
    {
      var failure, next, f := StagePath(fs, paths, staged, entries, sha1);
      if failure.Some? {
        err := failure;
      } else {
        entries, onDisk, staged := next, Some(f), staged + 1;
      }
    }
    AddOutcome(fs, paths, sha1, err, staged, onDisk);
  }

  /** Where the staging loop stops decides what `add` reports: no error exactly
      when the whole batch stages, and then the index it leaves is the batch's. */
  lemma AddOutcome(fs: Snapshot, paths: seq<string>, sha1: Hasher, err: Option<AddError>, staged: nat, onDisk: Option<seq<byte>>)
    requires staged <= |paths| && StagedIndex(fs, paths[..staged], sha1) == Ok(onDisk)
    requires err.None? ==> staged == |paths|
    requires err.Some? ==> staged < |paths| && StagedIndex(fs, paths[..staged + 1], sha1) == Err(err.value)
    ensures err.None? <==> StagedIndex(fs, paths, sha1).Ok?
    ensures err.None? ==> Ok(onDisk) == StagedIndex(fs, paths, sha1)
  {
    if err.Some? {
      StagedIndexFailurePersists(fs, paths, staged + 1, sha1);
    } else {
      assert paths[..staged] == paths;
    }
  }

  /** Reading back the index that `add` leaves gives one entry per path, in the
      order the paths were given (not sorted), each naming its path and the
      blob id of that path's content. */
  lemma StagedIndexReadsBack(fs: Snapshot, paths: seq<string>, sha1: Hasher, f: seq<byte>)
    requires StagedIndex(fs, paths, sha1) == Ok(Some(f))
    ensures ParseIndex(f, sha1) == Ok(BuildEntries(fs, paths, sha1).value)
    ensures |ParseIndex(f, sha1).value| == |paths|
    ensures forall i :: 0 <= i < |paths| ==>
      ParseIndex(f, sha1).value[i].path == paths[i]
      && ParseIndex(f, sha1).value[i].sha1 == sha1(Envelope("blob", fs[paths[i]].content))
  {
    var es := BuildEntries(fs, paths, sha1).value;
    assert forall i :: 0 <= i < |es| ==> WellFormed(es[i]);
    ParseIndexOfWriteIndex(es, sha1);
  }
}

=== FILE: utf8.dfy ===
/** UTF-8, as Python's `str.encode()` produces it, and a validating decoder.
    A Dafny `char` is a Unicode scalar value, so every string is encodable. */
module Utf8 {
  import opened Outcomes
  import opened Bytes

  /** A continuation byte `10xxxxxx`. */
  predicate IsContinuation(b: byte) {
    0x80 <= b < 0xC0
  }

  /** The one to four bytes that encode `c`. */
  function EncodeChar(c: char): (r: seq<byte>)
    ensures 1 <= |r| <= 4
    ensures |r| == 1 <==> c as int < 0x80
    ensures |r| == 1 ==> r[0] == c as int
    ensures |r| > 1 ==> forall i :: 0 <= i < |r| ==> r[i] >= 0x80
  {
    var cp := c as int;
    if cp < 0x80 then [cp]
    else if cp < 0x800 then [0xC0 + cp / 0x40, 0x80 + cp % 0x40]
    else if cp < 0x1_0000 then
      [0xE0 + cp / 0x1000, 0x80 + (cp / 0x40) % 0x40, 0x80 + cp % 0x40]
    else
      [0xF0 + cp / 0x4_0000, 0x80 + (cp / 0x1000) % 0x40,
       0x80 + (cp / 0x40) % 0x40, 0x80 + cp % 0x40]
  }

  /** The UTF-8 bytes of `s`, character by character. */
  function Encode(s: string): (r: seq<byte>)
    ensures |s| <= |r| <= 4 * |s|
  {
    if |s| == 0 then [] else EncodeChar(s[0]) + Encode(s[1..])
  }

  /** A code point is a Unicode scalar value: not a surrogate, at most U+10FFFF. */
  predicate IsScalar(cp: int) {
    (0 <= cp < 0xD800) || (0xE000 <= cp < 0x11_0000)
  }

  /** Decodes the first character of `s`, returning it with the number of bytes
      it occupies; `None` on a malformed, overlong, surrogate or truncated sequence. */
  function DecodeFirst(s: seq<byte>): (r: Option<(char, nat)>)
    ensures r.Some? ==> 1 <= r.value.1 <= |s| && r.value.1 <= 4
  {
    if |s| == 0 then None
    else if s[0] < 0x80 then Some((s[0] as char, 1))
    else if 0xC0 <= s[0] < 0xE0 then
      if |s| < 2 || !IsContinuation(s[1]) then None
      else
        var cp: int := (s[0] as int - 0xC0) * 0x40 + (s[1] as int - 0x80);
        if cp < 0x80 then None else Some((cp as char, 2))
    else if 0xE0 <= s[0] < 0xF0 then
      if |s| < 3 || !IsContinuation(s[1]) || !IsContinuation(s[2]) then None
      else
        var cp: int := (s[0] as int - 0xE0) * 0x1000 + (s[1] as int - 0x80) * 0x40 + (s[2] as int - 0x80);
        if cp < 0x800 || !IsScalar(cp) then None else Some((cp as char, 3))
    else if 0xF0 <= s[0] < 0xF8 then
      if |s| < 4 || !IsContinuation(s[1]) || !IsContinuation(s[2]) || !IsContinuation(s[3]) then None
      else
        var cp: int := (s[0] as int - 0xF0) * 0x4_0000 + (s[1] as int - 0x80) * 0x1000
                  + (s[2] as int - 0x80) * 0x40 + (s[3] as int - 0x80);
        if cp < 0x1_0000 || !IsScalar(cp) then None else Some((cp as char, 4))
    else None
  }

  /** The string whose UTF-8 encoding is `s`, or `None` if `s` is not valid UTF-8. */
  function Decode(s: seq<byte>): (r: Option<string>)
    decreases |s|
  {
    if |s| == 0 then Some([])
    else
      match DecodeFirst(s)
      case None => None
      case Some((c, n)) =>
        match Decode(s[n..])
        case None => None
        case Some(rest) => Some([c] + rest)
  }

  /** The decoder reads back exactly the character the encoder wrote,
      whatever follows it. */
  lemma DecodeFirstOfEncodeChar(c: char, rest: seq<byte>)
    ensures DecodeFirst(EncodeChar(c) + rest) == Some((c, |EncodeChar(c)|))
  {
    var cp := c as int;
    if cp < 0x80 {
      assert (EncodeChar(c) + rest)[0] == cp;
    } else if cp < 0x800 {
      DecodeTwoBytes(c, rest);
    } else if cp < 0x1_0000 {
      DecodeThreeBytes(c, rest);
    } else {
      DecodeFourBytes(c, rest);
    }
  }

  lemma DecodeTwoBytes(c: char, rest: seq<byte>)
    requires 0x80 <= c as int < 0x800
    ensures DecodeFirst(EncodeChar(c) + rest) == Some((c, 2))
  {
    var cp := c as int;
    var s := EncodeChar(c) + rest;
    assert s[0] == 0xC0 + cp / 0x40 && s[1] == 0x80 + cp % 0x40;
    assert (s[0] as int - 0xC0) * 0x40 + (s[1] as int - 0x80) == cp;
  }

  lemma DecodeThreeBytes(c: char, rest: seq<byte>)
    requires 0x800 <= c as int < 0x1_0000
    ensures DecodeFirst(EncodeChar(c) + rest) == Some((c, 3))
  {
    var cp := c as int;
    var s := EncodeChar(c) + rest;
    var mid := cp / 0x40;
    assert s[0] == 0xE0 + mid / 0x40 && s[1] == 0x80 + mid % 0x40 && s[2] == 0x80 + cp % 0x40;
    assert (s[0] as int - 0xE0) * 0x40 + (s[1] as int - 0x80) == mid;
    assert mid * 0x40 + (s[2] as int - 0x80) == cp;
  }

  lemma DecodeFourBytes(c: char, rest: seq<byte>)
    requires 0x1_0000 <= c as int
    ensures DecodeFirst(EncodeChar(c) + rest) == Some((c, 4))
  {
    var cp := c as int;
    var s := EncodeChar(c) + rest;
    var mid := cp / 0x40;
    var top := mid / 0x40;
    assert cp / 0x1000 == top;
    assert s[0] == 0xF0 + top / 0x40 && s[1] == 0x80 + top % 0x40;
    assert s[2] == 0x80 + mid % 0x40 && s[3] == 0x80 + cp % 0x40;
    assert (s[0] as int - 0xF0) * 0x40 + (s[1] as int - 0x80) == top;
    assert top * 0x40 + (s[2] as int - 0x80) == mid;
    assert mid * 0x40 + (s[3] as int - 0x80) == cp;
  }

  /** Splitting `hi * 0x40 + lo` back into its six-bit groups. */
  lemma SixBitGroups(hi: int, lo: int)
    requires 0 <= hi && 0 <= lo < 0x40
    ensures (hi * 0x40 + lo) / 0x40 == hi && (hi * 0x40 + lo) % 0x40 == lo
  {
  }

  /** A decoded character re-encodes to exactly the bytes it was decoded from:
      the decoder accepts only the encoder's (shortest) form. */
  lemma EncodeCharOfDecodeFirst(s: seq<byte>)
    requires DecodeFirst(s).Some?
    ensures EncodeChar(DecodeFirst(s).value.0) == s[..DecodeFirst(s).value.1]
  {
    if s[0] < 0x80 {
    } else if s[0] < 0xE0 {
      ReencodeTwoBytes(s);
    } else if s[0] < 0xF0 {
      ReencodeThreeBytes(s);
    } else {
      ReencodeFourBytes(s);
    }
  }

  lemma ReencodeTwoBytes(s: seq<byte>)
    requires DecodeFirst(s).Some? && 0x80 <= s[0] < 0xE0
    ensures EncodeChar(DecodeFirst(s).value.0) == s[..2]
  {
    SixBitGroups(s[0] as int - 0xC0, s[1] as int - 0x80);
  }

  lemma ReencodeThreeBytes(s: seq<byte>)
    requires DecodeFirst(s).Some? && 0xE0 <= s[0] < 0xF0
    ensures EncodeChar(DecodeFirst(s).value.0) == s[..3]
  {
    var cp := DecodeFirst(s).value.0 as int;
    var mid := (s[0] as int - 0xE0) * 0x40 + (s[1] as int - 0x80);
    SixBitGroups(mid, s[2] as int - 0x80);
    SixBitGroups(s[0] as int - 0xE0, s[1] as int - 0x80);
    assert cp == mid * 0x40 + (s[2] as int - 0x80);
    assert cp / 0x40 == mid;
    assert cp / 0x1000 == mid / 0x40;
  }

  lemma ReencodeFourBytes(s: seq<byte>)
    requires DecodeFirst(s).Some? && 0xF0 <= s[0]
    ensures EncodeChar(DecodeFirst(s).value.0) == s[..4]
  {
    var cp := DecodeFirst(s).value.0 as int;
    var top := (s[0] as int - 0xF0) * 0x40 + (s[1] as int - 0x80);
    var mid := top * 0x40 + (s[2] as int - 0x80);
    SixBitGroups(s[0] as int - 0xF0, s[1] as int - 0x80);
    SixBitGroups(top, s[2] as int - 0x80);
    SixBitGroups(mid, s[3] as int - 0x80);
    assert cp == mid * 0x40 + (s[3] as int - 0x80);
    assert cp / 0x40 == mid;
    assert cp / 0x1000 == top;
    assert cp / 0x4_0000 == top / 0x40;
  }

  /** Encoding inverts decoding: a byte string the decoder accepts is the
      encoding of the string it decodes to. */
  lemma {:induction false} EncodeDecode(s: seq<byte>)
    requires Decode(s).Some?
    ensures Encode(Decode(s).value) == s
    decreases |s|
  {
    if |s| > 0 {
      var c, n := DecodeStep(s);
      var rest := Decode(s[n..]).value;
      EncodeDecode(s[n..]);
      EncodeCons(c, rest);
      assert s == s[..n] + s[n..];
    }
  }

  /** One step of the decoder: a character whose encoding opens `s`, then the
      rest decoded. */
  lemma DecodeStep(s: seq<byte>) returns (c: char, n: nat)
    requires |s| > 0 && Decode(s).Some?
    ensures 1 <= n <= |s| && EncodeChar(c) == s[..n]
    ensures Decode(s[n..]).Some?
    ensures Decode(s).value == [c] + Decode(s[n..]).value
  {
    c, n := DecodeFirst(s).value.0, DecodeFirst(s).value.1;
    EncodeCharOfDecodeFirst(s);
  }

  /** Encoding a string that starts with `c`. */
  lemma EncodeCons(c: char, rest: string)
    ensures Encode([c] + rest) == EncodeChar(c) + Encode(rest)
  {
    assert ([c] + rest)[1..] == rest;
  }

  /** Decoding inverts encoding. */
  lemma {:induction false} DecodeEncode(s: string)
    ensures Decode(Encode(s)) == Some(s)
  {
    if |s| > 0 {
      var e := Encode(s);
      DecodeFirstOfEncodeChar(s[0], Encode(s[1..]));
      assert e[|EncodeChar(s[0])|..] == Encode(s[1..]);
      DecodeEncode(s[1..]);
      assert [s[0]] + s[1..] == s;
    }
  }

  /** A NUL byte occurs in the encoding exactly where a NUL character occurs. */
  lemma {:induction false} EncodeHasNul(s: string)
    ensures (0 in Encode(s)) <==> ('\0' in s)
  {
    if |s| > 0 {
      EncodeHasNul(s[1..]);
      var c := EncodeChar(s[0]);
      assert Encode(s) == c + Encode(s[1..]);
      assert (0 in c) <==> s[0] == '\0';
      assert s == [s[0]] + s[1..];
    }
  }

  /** An ASCII string encodes to one byte per character, its code. */
  lemma {:induction false} EncodeAscii(s: string)
    requires forall i :: 0 <= i < |s| ==> s[i] as int < 0x80
    ensures |Encode(s)| == |s|
    ensures forall i :: 0 <= i < |s| ==> Encode(s)[i] == s[i] as int
  {
    if |s| > 0 {
      EncodeAscii(s[1..]);
    }
  }
}

=== FILE: worktree.dfy ===
/** The part of the file system the core reads: file contents and `os.stat` results. */
module WorkTree {
  import opened Bytes

  /** The `os.stat` fields an index entry records. The time stamps are the
      whole seconds `int(st.st_ctime)` and `int(st.st_mtime)`. */
  datatype Stat = Stat(ctime: int, mtime: int, dev: int, ino: int, mode: int,
                       uid: int, gid: int, size: int)

  /** A regular file: its bytes and its metadata. */
  datatype File = File(content: seq<byte>, stat: Stat)

  /** The files that can be opened, by the path they are named with. */
  type Snapshot = map<string, File>
}
